=== FILE: README.md ===
# Teacher AIO sheet resolution, modelled in Dafny

This project models how the Teacher AIO server answers `GET /api/sheet?lmsCode=…`, and how the dashboard card displays the answer. The handler fetches a Google Visualization ("gviz") query response and decodes it. It then builds a table of column names and label-keyed row objects, and keeps every row in which some cell equals the teacher's LMS code, ignoring case and surrounding white space. Finally it projects each kept row through the fixed spreadsheet letters D, G, J, P, R, S, T, U and W onto nine output names. The card's `fmt` then renders seven of those nine values: a dash for a missing value, and digit grouping for the `TP` field only. The other two, Rank and Role, are shown as plain badges.

Modules, one per component:

- `Wrappers`: `Option`.
- `Text`: the JavaScript string built-ins the pipeline relies on:
  - `trim`, with the full ECMAScript white-space set;
  - ASCII `toLowerCase` and `toUpperCase`;
  - `indexOf` and `lastIndexOf` of a character, and `includes`;
  - `String(n)` for integers.
- `Seqs`: `Array.prototype.filter`, for any element type.
- `Gviz`: `parseGviz`. It covers the envelope cut, the parsed document, the column names, the row objects and the `col_<idx>` fallback key.
- `Sheet`: the `/api/sheet` handler, written as a pure function of three things:
  - the `lmsCode` query value;
  - what the fetch produced;
  - the JSON parser.

  The remap's letters and output names are constants inside the model.
- `Card`: `fmt`, the regular expression `-?\d+(\.\d+)?`, and the seven metric cards.

Some behaviour of the source code, stated exactly by the model:

- **Remap uses `row[cols[idx]]`.** The remap reads a value under the column *name* at a letter's position. When the row was built, it stored a cell whose column name is empty under `col_<idx>`. So a picked column with an empty name always remaps to null (`Sheet.EmptyNameGivesNull`).
- **Duplicate names.** Suppose a later column repeats a picked column's name, the row has a cell at that later position, and no still-later cell has the same key. Then the remap yields the later cell, not the one under the picked letter (`Sheet.RemapSeesLaterDuplicate`).
- **White-space-only `lmsCode`.** It passes the `!lmsCode` guard, but its needle is the empty string. A null cell reads as `""` under `String(v ?? '')`, so such a code matches every row holding a null or blank cell (`Sheet.BlankCodeMatchesBlankCells`).
- **Rejected fetch.** A `fetch` that rejects is caught by the handler's `catch`. It is answered with 500, like a decode or parse failure, and not with an upstream status.
- **Where grouping happens.** Digit grouping and the dash are applied by the dashboard card, not by the server. The server returns `null` for a missing value.

## Model

| member | source | states |
|---|---|---|
| Text.Trim | TeacherAIO_ver2/server/src/index.js:76 | `trim` gives the empty string exactly when the input is all white space. Neither end of a non-empty result is white space, and the result is never longer than the input. |
| Text.TrimUnique | TeacherAIO_ver2/server/src/index.js:76 | A slice with only white space outside it and none at its ends is exactly what `trim` returns. This characterises `trim` independently of how it scans. |
| Text.TrimDropsPrefix | TeacherAIO_ver2/server/src/index.js:79 | Leading white space does not change what `trim` returns. |
| Text.TrimDropsSuffix | TeacherAIO_ver2/server/src/index.js:79 | Trailing white space does not change what `trim` returns. |
| Text.TrimIgnoresPadding | TeacherAIO_ver2/server/src/index.js:79 | White space on both sides does not change what `trim` returns. |
| Text.Lower | TeacherAIO_ver2/server/src/index.js:76 | Lower-casing keeps the length and leaves no upper-case ASCII letter. Every character is kept or is an upper-case letter moved to its lower-case form. |
| Text.LowerTrim | TeacherAIO_ver2/server/src/index.js:79 | Lower-casing and trimming commute, because no white-space character is an ASCII letter. |
| Text.NormIgnoresPadding | TeacherAIO_ver2/server/src/index.js:76-79 | The trimmed, lower-cased form ignores surrounding white space. |
| Text.NormIgnoresAsciiCase | TeacherAIO_ver2/server/src/index.js:76-79 | Two strings equal up to ASCII case have the same trimmed, lower-cased form. |
| Text.IndexOf | TeacherAIO_ver2/server/src/index.js:39 | `indexOf` finds nothing exactly when the character is absent. Otherwise it returns a position holding the character with no earlier occurrence. |
| Text.LastIndexOf | TeacherAIO_ver2/server/src/index.js:40 | `lastIndexOf` finds nothing exactly when the character is absent. Otherwise it returns a position holding the character with no later occurrence. |
| Text.Includes | TeacherAIO_ver2/server/src/index.js:71 | `includes` holds exactly when the pattern occurs at some position of the text. |
| Text.NatToString | TeacherAIO_ver2/server/src/index.js:49 | The decimal rendering of an index is a non-empty run of digits with no leading zero. |
| Text.NatToStringRoundTrip | TeacherAIO_ver2/server/src/index.js:49 | Reading the decimal rendering back gives the number. |
| Text.NatToStringInjective | TeacherAIO_ver2/server/src/index.js:49 | Different numbers have different renderings. |
| Text.IntToString | TeacherAIO_ver2/server/src/index.js:79 | `String(n)` of an integer cell starts with a minus sign exactly when the number is negative. The digits after it read back as the number's magnitude. There is no leading zero: only zero itself starts with `0`, and no digit run after a minus sign does. |
| Gviz.JsString | TeacherAIO_ver2/server/src/index.js:79 | `String(v)`: a string is its own text, and a number's text is non-empty, starts with `-` exactly when it is negative, and is all digits otherwise. |
| Gviz.JsStringKeywords | TeacherAIO_ver2/src/components/LiquidGlassCard.tsx:28 | The text `null`, `true` or `false` comes only from that JSON value or from the string that spells it. No number renders as a keyword. |
| Gviz.Envelope | TeacherAIO_ver2/server/src/index.js:39-43 | The cut fails exactly when `{` or `}` is missing. A non-empty cut starts with `{`, ends with `}`, occurs in the text, has no `{` before it and no `}` after it. The cut is empty exactly when every `}` precedes every `{`, because `slice` with end before start is empty. |
| Gviz.Decode | TeacherAIO_ver2/server/src/index.js:39-44 | Decoding fails when a brace is missing. When both are present, the result is exactly what the parser makes of the cut from the first `{` to the last `}`. |
| Gviz.Columns | TeacherAIO_ver2/server/src/index.js:45 | There is one name per column descriptor, in order, each being `label`, else `id`, else empty. It fails exactly when a descriptor is `null`. |
| Gviz.ColumnName | TeacherAIO_ver2/server/src/index.js:45 | A non-empty label always becomes the name, and a non-empty name is the label or the id. The name is empty exactly when both are absent or empty. |
| Gviz.CellValue | TeacherAIO_ver2/server/src/index.js:50 | `cell?.v ?? null` is null exactly for a `null` cell or a cell whose value is null. Any other cell yields its own value. |
| Gviz.Key | TeacherAIO_ver2/server/src/index.js:49 | The key a cell is stored under is never empty. |
| Gviz.Assign | TeacherAIO_ver2/server/src/index.js:47-51 | Assigning in order gives an object whose keys are exactly the assigned keys. Each key holds the value of its last assignment. |
| Gviz.AssignLast | TeacherAIO_ver2/server/src/index.js:50 | One more `obj[k] = v` adds `k` to the keys, keeps every earlier last-written value under another key, and puts `v` under `k`. |
| Gviz.BuildRow | TeacherAIO_ver2/server/src/index.js:46-52 | A row object's keys are exactly the cells' keys. A cell that no later cell shares a key with is stored with `cell?.v ?? null`. |
| Gviz.Rows | TeacherAIO_ver2/server/src/index.js:46-53 | There is one row object per row descriptor, in order. It fails exactly when a descriptor is `null`. |
| Gviz.Build | TeacherAIO_ver2/server/src/index.js:45-54 | The table has one name per column and one row per row descriptor. Over the document shapes the model expresses, it fails only where the JavaScript throws, on a `null` column or row descriptor. |
| Gviz.ParseGviz | TeacherAIO_ver2/server/src/index.js:37-55 | Over the document shapes the model expresses, `parseGviz` fails exactly when a brace is missing, the parser rejects the cut, or the document has a `null` column or row descriptor. Otherwise it returns the table built from the parsed document. |
| Gviz.SyntheticKeyInjective | TeacherAIO_ver2/server/src/index.js:49 | The fallback keys `col_<idx>` of different positions differ. |
| Gviz.EmptyKeyNeverStored | TeacherAIO_ver2/server/src/index.js:49 | No row object has the empty key. |
| Gviz.CellStored | TeacherAIO_ver2/server/src/index.js:49-50 | A cell whose key no later cell shares is stored under its column name, or under `col_<idx>` when that name is empty or missing. |
| Gviz.DuplicateNameOverwrites | TeacherAIO_ver2/server/src/index.js:48-51 | Two columns at positions `a < b` share a non-empty name, the row has a cell at `b`, and no cell after `b` has the same key. Then the row holds cell `b`'s value under that name. |
| Gviz.DistinctHeaderRow | TeacherAIO_ver2/server/src/index.js:46-53 | Take distinct, non-empty column names and a full row. The row's keys are then exactly the names, each holding its own cell. |
| Seqs.FilterBy | TeacherAIO_ver2/server/src/index.js:77-80 | The result is never longer than the input. Every kept element passes the test and every passing element is kept. The result is empty exactly when none passes. |
| Seqs.FilterKeepsAll | TeacherAIO_ver2/server/src/index.js:77-80 | A test every element passes keeps the whole sequence. |
| Seqs.FilterCount | TeacherAIO_ver2/server/src/index.js:77-80 | A passing element is kept as often as it occurs, and any other element is dropped. |
| Seqs.FilterAppend | TeacherAIO_ver2/server/src/index.js:77-80 | Filtering distributes over concatenation, which preserves order. |
| Sheet.CellText | TeacherAIO_ver2/server/src/index.js:79 | `String(v ?? '')` is empty exactly for a null cell or the empty string. It differs from `String(v)` exactly on null, which would read `null`. |
| Sheet.Filter | TeacherAIO_ver2/server/src/index.js:77-80 | Every kept row has a cell equal to the needle, and every such row is kept. No match gives an empty list, not a failure. |
| Sheet.FilterKeepsTableOrder | TeacherAIO_ver2/server/src/index.js:77-80 | Matched rows keep their table order. |
| Sheet.FilterKeepsEachRowOnce | TeacherAIO_ver2/server/src/index.js:77-80 | A matching row appears as often as the table holds it, so once for a row held once. |
| Sheet.NullMatchesOnlyEmptyNeedle | TeacherAIO_ver2/server/src/index.js:79 | A null cell reads as `""` and so matches exactly the empty needle. |
| Sheet.BlankCodeMatchesBlankCells | TeacherAIO_ver2/server/src/index.js:76-80 | A non-empty `lmsCode` made only of white space has the empty needle. It matches any row holding a null or blank cell. |
| Sheet.MatchIgnoresCaseAndPadding | TeacherAIO_ver2/server/src/index.js:76-79 | A query equal to a cell's text up to ASCII case and surrounding white space matches the row. |
| Sheet.LetterToIndex | TeacherAIO_ver2/server/src/index.js:83 | Exactly the ASCII letters address one of the 26 columns, and both cases of a letter address the same column. |
| Sheet.PickedColumns | TeacherAIO_ver2/server/src/index.js:83-84 | D, G, J, P, R, S, T, U, W address positions 3, 6, 9, 15, 17, 18, 19, 20, 22. |
| Sheet.FieldLabelsAreNames | TeacherAIO_ver2/server/src/index.js:84-104 | There are nine letters and nine names. The fallback from a name to its letter never happens, and the nine names are pairwise distinct. |
| Sheet.Lookup | TeacherAIO_ver2/server/src/index.js:100-105 | A position outside the header gives null. At a position inside it, a name the row holds yields the row's value under it. A non-null result is always such a value. |
| Sheet.Remap | TeacherAIO_ver2/server/src/index.js:97-106 | A remapped row has exactly the nine names in letter order. Each holds the value under the column name at its letter's position, or null. |
| Sheet.ShortHeaderGivesNull | TeacherAIO_ver2/server/src/index.js:100-105 | A picked position past the end of the header remaps to null, never to an out-of-bounds failure. |
| Sheet.EmptyNameGivesNull | TeacherAIO_ver2/server/src/index.js:97-105 | A picked column with an empty name always remaps to null, whatever its cell holds. |
| Sheet.RemapIsPositional | TeacherAIO_ver2/server/src/index.js:97-105 | A picked column with a non-empty name that no later cell shares yields that column's own cell, whatever the name's text. |
| Sheet.RemapSeesLaterDuplicate | TeacherAIO_ver2/server/src/index.js:97-105 | A later column repeats a picked column's non-empty name, the row has a cell at that later position, and no still-later cell has the same key. Then the remap yields the later cell's value, not the picked cell's. |
| Sheet.RemapAll | TeacherAIO_ver2/server/src/index.js:97-108 | There is one remapped row per matched row, in match order. |
| Sheet.Resolve | TeacherAIO_ver2/server/src/index.js:58-115 | The outcomes are checked in order: missing `lmsCode`, then a rejected fetch (500), then upstream non-2xx with its status and body relayed, then marker absent, then a decode or parse failure (500). Over the document shapes the model expresses, each outcome holds exactly under its condition. A success returns the parsed columns unchanged and a count equal to the number of matched rows, with each row remapped in match order. |
| Sheet.MissingCodeIgnoresUpstream | TeacherAIO_ver2/server/src/index.js:61 | A missing `lmsCode` is answered with 400 whatever the upstream would have produced. |
| Sheet.FailuresNotConflated | TeacherAIO_ver2/server/src/index.js:68-73 | An upstream failure always carries a non-2xx status, and "not public" follows only a 2xx reply. The answer is 2xx exactly on success. |
| Sheet.ResolvedRowsAreMatches | TeacherAIO_ver2/server/src/index.js:74-110 | A 2xx gviz reply whose cut parses into a document without `null` descriptors always succeeds, with that document's column names. Its count is zero exactly when no row built from the document matches. |
| Card.RemoveCommas | TeacherAIO_ver2/src/components/LiquidGlassCard.tsx:26 | Removing commas leaves no comma, and leaves a comma-free text unchanged. |
| Card.RemoveCommasKeepsDigits | TeacherAIO_ver2/src/components/LiquidGlassCard.tsx:26 | Removing commas keeps every other character as often as it occurs, so the text holds a digit after removal exactly when it did before. |
| Card.RemoveCommasAppend | TeacherAIO_ver2/src/components/LiquidGlassCard.tsx:26 | Comma removal on a concatenation is the concatenation of the parts' comma removals. |
| Card.RemoveCommasChar | TeacherAIO_ver2/src/components/LiquidGlassCard.tsx:26 | A single character is dropped exactly when it is a comma. Together with `RemoveCommasAppend` this fixes the result on every text. |
| Card.RemoveCommasJoins | TeacherAIO_ver2/src/components/LiquidGlassCard.tsx:26 | Any number of separators between comma-free parts are all removed, and the parts are joined in order. |
| Card.UnsignedShape | TeacherAIO_ver2/src/components/LiquidGlassCard.tsx:26 | An unsigned numeral ends within a leading run of digits, or within the digits after a point that follows that run. |
| Card.MatchEnd | TeacherAIO_ver2/src/components/LiquidGlassCard.tsx:26 | The match at a position is a numeral and no numeral starting there is longer. None is found exactly when no numeral starts there. |
| Card.FirstNumeral | TeacherAIO_ver2/src/components/LiquidGlassCard.tsx:26 | The match is a numeral starting at the leftmost position where any numeral starts, and is the longest one there. |
| Card.NumeralIffDigit | TeacherAIO_ver2/src/components/LiquidGlassCard.tsx:26-27 | The leftmost-longest search for `-?\d+(\.\d+)?` finds a match exactly when the text holds a digit. |
| Card.NumberText | TeacherAIO_ver2/src/components/LiquidGlassCard.tsx:26 | `.match(...)?.[0]` yields a text exactly when the input holds a digit, and that text is a numeral of the pattern's shape. It is the part of the input at the leftmost position where any numeral starts, and no numeral starting there is longer. |
| Card.NumberTextOfDigits | TeacherAIO_ver2/src/components/LiquidGlassCard.tsx:26 | A text made only of digits is matched whole. |
| Card.NumberTextSignedDecimal | TeacherAIO_ver2/src/components/LiquidGlassCard.tsx:26 | A negative decimal followed by a non-digit is matched with its sign and decimals, and the match stops there. |
| Card.Fmt | TeacherAIO_ver2/src/components/LiquidGlassCard.tsx:24-29 | A null or empty value gives the dash. A non-`TP` card, or a text without digits, shows `String(v)`. On `TP`, a text with a digit shows the grouping of its first numeral after commas are removed. |
| Card.JsStringDash | TeacherAIO_ver2/src/components/LiquidGlassCard.tsx:28 | `String(v)` is the dash only for the dash string itself. |
| Card.DashExactlyWhenBlank | TeacherAIO_ver2/src/components/LiquidGlassCard.tsx:25 | Away from `TP`, the dash is shown exactly for a null or empty value, or for the dash string itself. |
| Card.FmtGroupsSeparatedNumber | TeacherAIO_ver2/src/components/LiquidGlassCard.tsx:26-28 | Runs of digits joined by any number of thousands separators are grouped from the joined digits on `TP`, and shown as written elsewhere. |
| Card.FmtTakesFirstNumber | TeacherAIO_ver2/src/components/LiquidGlassCard.tsx:26-27 | On `TP`, only the first number counts, with its sign and decimals. |
| Card.CardsShowRemappedColumns | TeacherAIO_ver2/src/components/LiquidGlassCard.tsx:69-91 | The cards read exactly the server's remapped fields. Card `k` shows the matched row's column J, R, U, P, S, T or W, formatted with its own label. |
| Card.NoRowAllDashes | TeacherAIO_ver2/src/components/LiquidGlassCard.tsx:69-91 | Without a matched row every card shows the dash. |
| Card.OnlyTpIsGrouped | TeacherAIO_ver2/src/components/LiquidGlassCard.tsx:69-91 | Every card but `TP` shows a non-blank value's text unchanged. |

## Left out

- The HTTP layer (`index.js:6-9,58,66-67,110-113`): Express routing, CORS, JSON bodies, `fetch`, `res.status().json()` and the error message texts. The fetch result is an input (`Upstream`); the answer is an `Outcome` with `StatusCode`.
- The URL and `gid` handling (`index.js:63-64`): it only chooses which sheet is fetched, and the fetched body is an input.
- MongoDB, bcrypt, JWT and the register, login and health routes (`index.js:11-34,117-186`): external libraries and I/O.
- `JSON.parse`: this is the parameter `parse`. The document it yields is modelled only as far as `parseGviz` reads it. A column `label` or `id`, or an `lmsCode`, that is not a string is left out; the model takes them to be strings or absent.
- JSON shapes outside `Doc`: a truthy `cols` or `rows` that is not an array, a row's `c` that is neither absent nor an array, and cell values that are objects or arrays. On the first two the JavaScript throws (`index.js:45-46,48`) and the handler answers 500 (`index.js:111-113`). On the last, `String(v)` gives `[object Object]` or the comma-joined elements (`index.js:79`). The model takes `parse` to yield only the shapes `Doc` expresses and to reject the others, which keeps the 500 of the first two.
- Cell numbers: these are integers, and `String(n)` is their plain decimal rendering. Fractions, exponent forms, `NaN`, `Infinity` and `-0` are left out.
- `Number(...).toLocaleString()` in `fmt`: this is the parameter `group`, applied to the extracted numeral's text. `Number.isNaN` never holds for a matched numeral.
- Unicode case folding: `toLowerCase` and `toUpperCase` are modelled on ASCII letters only, and every other character is kept.
- Row objects are maps. Keys inherited from `Object.prototype` (`constructor`, `__proto__`) and JavaScript's ordering of integer-like keys are left out, since the match and the remap read values by key.
- `lmsCode` given more than once in the query string, which Express turns into an array: the model takes the parameter to be absent or one string.
- The Rank and Role badges (`LiquidGlassCard.tsx:21-22,50-63`): presentation of two remapped fields without formatting.
- `Dashboard.tsx`'s fetch effect and its use of only the first returned row, `getPersonalStats` in `App.tsx`, and the rest of the React UI.

=== FILE: card.dfy ===
/** The dashboard card's value formatter `fmt` and the seven metric cards
    that show the remapped fields. */
module Card {
  import opened Wrappers
  import opened Text
  import opened Gviz
  import opened Seqs
  import opened Sheet

  /** What the card shows for a missing value. */
  const Dash: string := "—"

  // ---------------------------------------------------------------------
  // Numeric extraction: `String(v).replace(/,/g, '').match(/-?\d+(\.\d+)?/)`

  predicate NotComma(c: char) {
    c != ','
  }

  /** `s.replace(/,/g, '')`. */
  function RemoveCommas(s: string): (r: string)
    ensures ',' !in r
    ensures ',' !in s ==> r == s
  {
    var r := FilterBy(s, NotComma);
    assert ',' !in s ==> r == s by {
      if ',' !in s { FilterKeepsAll(s, NotComma); }
    }
    assert forall k :: 0 <= k < |r| ==> r[k] != ',';
    r
  }

  /** One or more digits, optionally followed by a point and one or more
      digits: `\d+(\.\d+)?`. */
  predicate Unsigned(u: string) {
    || (u != [] && AllDigits(u))
    || exists p :: 0 < p < |u| - 1 && u[p] == '.' && AllDigits(u[..p]) && AllDigits(u[p + 1..])
  }

  /** The strings the pattern `-?\d+(\.\d+)?` matches in full. */
  predicate IsNumeral(t: string) {
    Unsigned(t) || (t != [] && t[0] == '-' && Unsigned(t[1..]))
  }

  /** The end of the run of digits that starts at `k`. */
  function DigitsEnd(s: string, k: nat): (e: nat)
    requires k <= |s|
    ensures k <= e <= |s|
    ensures forall m :: k <= m < e ==> IsDigit(s[m])
    ensures e < |s| ==> !IsDigit(s[e])
    decreases |s| - k
  {
    if k < |s| && IsDigit(s[k]) then DigitsEnd(s, k + 1) else k
  }

  /** A run of digits never reaches past the end of the maximal run. */
  lemma DigitsWithinRun(s: string, k: nat, j: nat)
    requires k <= j <= |s| && forall m :: k <= m < j ==> IsDigit(s[m])
    ensures j <= DigitsEnd(s, k)
  {
  }

  /** Where an unsigned numeral `s[k..j]` can end: within the leading run
      of digits, or, when that run is followed by a point and a digit,
      within the run of digits after the point. */
  lemma UnsignedShape(s: string, k: nat, j: nat)
    requires k <= j <= |s| && Unsigned(s[k..j])
    ensures k < |s| && IsDigit(s[k])
    ensures var e := DigitsEnd(s, k);
      || j <= e
      || (e + 1 < j && s[e] == '.' && IsDigit(s[e + 1]) && j <= DigitsEnd(s, e + 1))
  {
    var u := s[k..j];
    if u != [] && AllDigits(u) {
      IntegerShape(s, k, j);
    } else {
      var p :| 0 < p < |u| - 1 && u[p] == '.' && AllDigits(u[..p]) && AllDigits(u[p + 1..]);
      FractionShape(s, k, p, j);
    }
  }

  /** A numeral without a point lies within the run of digits at `k`. */
  lemma IntegerShape(s: string, k: nat, j: nat)
    requires k < j <= |s| && AllDigits(s[k..j])
    ensures IsDigit(s[k]) && j <= DigitsEnd(s, k)
  {
    forall m | k <= m < j ensures IsDigit(s[m]) {
      assert s[k..j][m - k] == s[m];
    }
    DigitsWithinRun(s, k, j);
  }

  /** A numeral with a point `p` characters after `k`: the leading run
      ends exactly at the point, and the fraction lies within the run after
      it. */
  lemma FractionShape(s: string, k: nat, p: nat, j: nat)
    requires k <= j <= |s| && 0 < p < j - k - 1 && s[k..j][p] == '.'
    requires AllDigits(s[k..j][..p]) && AllDigits(s[k..j][p + 1..])
    ensures IsDigit(s[k]) && DigitsEnd(s, k) == k + p && s[k + p] == '.'
    ensures IsDigit(s[k + p + 1]) && j <= DigitsEnd(s, k + p + 1)
  {
    var u := s[k..j];
    forall m | k <= m < k + p ensures IsDigit(s[m]) {
      assert u[..p][m - k] == s[m];
    }
    forall m | k + p + 1 <= m < j ensures IsDigit(s[m]) {
      assert u[p + 1..][m - k - p - 1] == s[m];
    }
    DigitsWithinRun(s, k, k + p);
    DigitsWithinRun(s, k + p + 1, j);
  }

  /** The run of digits at `k`, with the point and digits that may follow
      it, is an unsigned numeral. */
  lemma UnsignedRun(s: string, k: nat)
    requires k < |s| && IsDigit(s[k])
    ensures Unsigned(s[k..DigitsEnd(s, k)])
    ensures var e := DigitsEnd(s, k);
      e + 1 < |s| && s[e] == '.' && IsDigit(s[e + 1]) ==> Unsigned(s[k..DigitsEnd(s, e + 1)])
  {
    var e := DigitsEnd(s, k);
    assert forall m :: 0 <= m < e - k ==> s[k..e][m] == s[k + m];
    if e + 1 < |s| && s[e] == '.' && IsDigit(s[e + 1]) {
      var f := DigitsEnd(s, e + 1);
      var u := s[k..f];
      var p := e - k;
      assert u[..p] == s[k..e];
      assert u[p + 1..] == s[e + 1..f];
      assert 0 < p < |u| - 1 && u[p] == '.' && AllDigits(u[..p]) && AllDigits(u[p + 1..]);
    }
  }

  /** The end of the greedy match of `-?\d+(\.\d+)?` starting at `i`: the
      longest numeral that starts there, or `None` when none does. */
  function MatchEnd(s: string, i: nat): (r: Option<nat>)
    requires i <= |s|
    ensures r.Some? ==> i < r.value <= |s| && IsNumeral(s[i..r.value])
    ensures forall j :: i <= j <= |s| && IsNumeral(s[i..j]) ==> r.Some? && j <= r.value
  {
    var k := if i < |s| && s[i] == '-' then i + 1 else i;
    if k < |s| && IsDigit(s[k]) then
      var e := DigitsEnd(s, k);
      var end := if e + 1 < |s| && s[e] == '.' && IsDigit(s[e + 1]) then DigitsEnd(s, e + 1) else e;
      MatchEndFacts(s, i, k, end);
      Some(end)
    else
      MatchEndFacts(s, i, k, i);
      None
  }

  /** The proof obligations of `MatchEnd`, shared by both of its branches. */
  lemma MatchEndFacts(s: string, i: nat, k: nat, end: nat)
    requires i <= |s| && k == (if i < |s| && s[i] == '-' then i + 1 else i)
    requires k < |s| && IsDigit(s[k]) ==>
      end == (var e := DigitsEnd(s, k); if e + 1 < |s| && s[e] == '.' && IsDigit(s[e + 1]) then DigitsEnd(s, e + 1) else e)
    ensures k < |s| && IsDigit(s[k]) ==> i < end <= |s| && IsNumeral(s[i..end])
    ensures forall j :: i <= j <= |s| && IsNumeral(s[i..j]) ==> k < |s| && IsDigit(s[k]) && j <= end
  {
    if k < |s| && IsDigit(s[k]) {
      UnsignedRun(s, k);
      var e := DigitsEnd(s, k);
      if k == i + 1 {
        assert s[i..end][1..] == s[k..end];
      } else {
        assert s[i..end] == s[k..end];
      }
    }
    forall j | i <= j <= |s| && IsNumeral(s[i..j])
      ensures k < |s| && IsDigit(s[k]) && j <= end
    {
      var t := s[i..j];
      if i < |s| && s[i] == '-' {
        // a leading minus is never part of an unsigned numeral
        assert !Unsigned(t) by {
          if Unsigned(t) { UnsignedShape(s, i, j); }
        }
        assert t[1..] == s[k..j];
        UnsignedShape(s, k, j);
      } else {
        assert !(t != [] && t[0] == '-');
        UnsignedShape(s, k, j);
      }
    }
  }

  /** The match of `-?\d+(\.\d+)?` in `s[from..]`, as a span: it starts at
      the leftmost position where any numeral starts and is the longest
      numeral there; `None` when no numeral occurs at all. */
  function FirstNumeral(s: string, from: nat): (r: Option<(nat, nat)>)
    requires from <= |s|
    ensures r.Some? ==> from <= r.value.0 < r.value.1 <= |s| && IsNumeral(s[r.value.0..r.value.1])
    ensures r.Some? ==> forall j :: r.value.0 <= j <= |s| && IsNumeral(s[r.value.0..j]) ==> j <= r.value.1
    ensures forall i, j :: from <= i <= j <= |s| && IsNumeral(s[i..j]) ==> r.Some? && r.value.0 <= i
    decreases |s| - from
  {
    match MatchEnd(s, from)
    case Some(end) => Some((from, end))
    case None =>
      if from == |s| then None else FirstNumeral(s, from + 1)
  }

  /** The matched text `m[0]` of the card's regular expression: a numeral
      found exactly when the text holds a digit; it is the part of `s` that
      starts where the leftmost numeral starts and is the longest numeral
      there. */
  function NumberText(s: string): (r: Option<string>)
    ensures r.Some? <==> HasDigit(s)
    ensures r.Some? ==> IsNumeral(r.value)
    ensures r.Some? ==> exists i :: FirstMatchAt(s, i, r.value)
  {
    NumeralIffDigit(s);
    match FirstNumeral(s, 0)
    case None => None
    case Some((i, j)) =>
      assert s[i..i + |s[i..j]|] == s[i..j];
      assert FirstMatchAt(s, i, s[i..j]);
      Some(s[i..j])
  }

  /** `t` is the part of `s` at `i`, no numeral of `s` starts before `i`,
      and no numeral starting at `i` is longer than `t`. */
  predicate FirstMatchAt(s: string, i: int, t: string) {
    && 0 <= i && i + |t| <= |s| && s[i..i + |t|] == t
    && (forall a, b :: 0 <= a <= b <= |s| && IsNumeral(s[a..b]) ==> i <= a)
    && (forall b :: i <= b <= |s| && IsNumeral(s[i..b]) ==> b <= i + |t|)
  }

  predicate HasDigit(s: string) {
    exists m :: 0 <= m < |s| && IsDigit(s[m])
  }

  /** A numeral occurs exactly when a digit does. */
  lemma NumeralIffDigit(s: string)
    ensures FirstNumeral(s, 0).Some? <==> HasDigit(s)
  {
    if HasDigit(s) {
      var m :| 0 <= m < |s| && IsDigit(s[m]);
      assert s[m..m + 1] == [s[m]];
      assert Unsigned(s[m..m + 1]);
    }
    if FirstNumeral(s, 0).Some? {
      var (i, j) := FirstNumeral(s, 0).value;
      var t := s[i..j];
      if Unsigned(t) { UnsignedShape(s, i, j); }
      else { assert t[1..] == s[i + 1..j]; UnsignedShape(s, i + 1, j); }
    }
  }

  /** Removing the thousands separators keeps every other character as
      often as it occurs, digits included, so the card finds a number
      exactly when the value's text holds a digit. */
  lemma RemoveCommasKeepsDigits(s: string)
    ensures forall c :: c != ',' ==> multiset(RemoveCommas(s))[c] == multiset(s)[c]
    ensures HasDigit(RemoveCommas(s)) <==> HasDigit(s)
  {
    var r := RemoveCommas(s);
    forall c | c != ',' ensures multiset(r)[c] == multiset(s)[c] {
      FilterCount(s, NotComma, c);
    }
    if HasDigit(s) {
      var m :| 0 <= m < |s| && IsDigit(s[m]);
      assert s[m] in multiset(s);
      assert s[m] in multiset(r);
      var k :| 0 <= k < |r| && r[k] == s[m];
    }
    if HasDigit(r) {
      var m :| 0 <= m < |r| && IsDigit(r[m]);
      assert r[m] in multiset(r);
      assert r[m] in multiset(s);
      var k :| 0 <= k < |s| && s[k] == r[m];
    }
  }

  // ---------------------------------------------------------------------
  // The formatter

  /** `v == null || v === ''`. */
  predicate Blank(v: Value) {
    v.Null? || v == Str("")
  }

  /** `fmt(label, v)`, with `Number(...).toLocaleString()` given as `group`
      applied to the extracted numeral: a dash for a blank value; for the
      `TP` card, the grouped first number in the value's text when there
      is one; otherwise the value's text unchanged. */
  function Fmt(cardLabel: string, v: Value, group: string -> string): (r: string)
    ensures Blank(v) ==> r == Dash
    ensures !Blank(v) && cardLabel != "TP" ==> r == JsString(v)
    ensures !Blank(v) && !HasDigit(JsString(v)) ==> r == JsString(v)
    ensures !Blank(v) && cardLabel == "TP" && HasDigit(JsString(v)) ==>
      && NumberText(RemoveCommas(JsString(v))).Some?
      && r == group(NumberText(RemoveCommas(JsString(v))).value)
  {
    if Blank(v) then Dash
    else
      var text := JsString(v);
      RemoveCommasKeepsDigits(text);
      NumeralIffDigit(RemoveCommas(text));
      match NumberText(RemoveCommas(text))
      case Some(num) => if cardLabel == "TP" then group(num) else text
      case None => text
  }

  /** The text of a value is the dash only for the dash string itself. */
  lemma JsStringDash(v: Value)
    ensures JsString(v) == Dash <==> v == Str(Dash)
  {
    if v.Num? {
      if v.n >= 0 { assert IsDigit(JsString(v)[0]); }
      else { assert |JsString(v)| >= 2; }
    }
  }

  /** Away from the `TP` card, the dash appears exactly for a blank value
      or for a value that is itself the dash. */
  lemma DashExactlyWhenBlank(cardLabel: string, v: Value, group: string -> string)
    requires cardLabel != "TP"
    ensures Fmt(cardLabel, v, group) == Dash <==> Blank(v) || v == Str(Dash)
  {
    JsStringDash(v);
  }

  /** Comma removal works piecewise: the text of a concatenation loses its
      commas part by part. */
  lemma RemoveCommasAppend(a: string, b: string)
    ensures RemoveCommas(a + b) == RemoveCommas(a) + RemoveCommas(b)
  {
    FilterAppend(a, b, NotComma);
  }

  /** A single character is dropped exactly when it is a comma. With
      `RemoveCommasAppend` this determines comma removal on every text. */
  lemma RemoveCommasChar(c: char)
    ensures RemoveCommas([c]) == if c == ',' then [] else [c]
  {
    assert [c][1..] == [];
  }

  /** `parts.join(',')`. */
  function JoinCommas(parts: seq<string>): string {
    if parts == [] then ""
    else if |parts| == 1 then parts[0]
    else parts[0] + "," + JoinCommas(parts[1..])
  }

  /** `parts.join('')`. */
  function Concat(parts: seq<string>): string {
    if parts == [] then "" else parts[0] + Concat(parts[1..])
  }

  /** Thousands separators between comma-free parts are all removed and
      the parts are joined: "1,234,567" becomes "1234567". */
  lemma {:induction false} RemoveCommasJoins(parts: seq<string>)
    requires forall i :: 0 <= i < |parts| ==> ',' !in parts[i]
    ensures RemoveCommas(JoinCommas(parts)) == Concat(parts)
  {
    if parts == [] {
      assert RemoveCommas("") == "";
    } else if |parts| == 1 {
      assert Concat(parts) == parts[0] + Concat([]);
      assert parts[0] + "" == parts[0];
    } else {
      var p, rest := parts[0], JoinCommas(parts[1..]);
      calc {
        RemoveCommas(JoinCommas(parts));
        { assert JoinCommas(parts) == (p + ",") + rest; }
        RemoveCommas((p + ",") + rest);
        { RemoveCommasAppend(p + ",", rest); }
        RemoveCommas(p + ",") + RemoveCommas(rest);
        { RemoveCommasAppend(p, ","); RemoveCommasChar(','); assert RemoveCommas(p) == p; }
        p + [] + RemoveCommas(rest);
        { RemoveCommasJoins(parts[1..]); }
        p + [] + Concat(parts[1..]);
        { assert p + [] == p; }
        Concat(parts);
      }
    }
  }

  /** Joining runs of digits gives a run of digits, non-empty when any run
      is there. */
  lemma {:induction false} ConcatDigits(parts: seq<string>)
    requires forall i :: 0 <= i < |parts| ==> parts[i] != [] && AllDigits(parts[i])
    ensures AllDigits(Concat(parts))
    ensures parts != [] ==> Concat(parts) != []
  {
    if parts != [] {
      ConcatDigits(parts[1..]);
      var p, r := parts[0], Concat(parts[1..]);
      forall i | 0 <= i < |p + r| ensures IsDigit((p + r)[i]) {
        if i < |p| { assert (p + r)[i] == p[i]; } else { assert (p + r)[i] == r[i - |p|]; }
      }
    }
  }

  /** A string of digits is matched as a whole. */
  lemma NumberTextOfDigits(s: string)
    requires s != [] && AllDigits(s)
    ensures NumberText(s) == Some(s)
  {
    assert s[0..|s|] == s;
    assert IsNumeral(s[0..|s|]);
    var r := FirstNumeral(s, 0);
    assert r.Some? && r.value.0 == 0;
    assert r.value.1 == |s|;
  }

  /** On the `TP` card a number written with thousands separators, such
      as "1,234,567", is grouped from its digits alone ("1234567"); on any
      other card it is shown as it is. */
  lemma FmtGroupsSeparatedNumber(cardLabel: string, parts: seq<string>, group: string -> string)
    requires parts != [] && forall i :: 0 <= i < |parts| ==> parts[i] != [] && AllDigits(parts[i])
    ensures cardLabel == "TP" ==> Fmt(cardLabel, Str(JoinCommas(parts)), group) == group(Concat(parts))
    ensures cardLabel != "TP" ==> Fmt(cardLabel, Str(JoinCommas(parts)), group) == JoinCommas(parts)
  {
    var s := JoinCommas(parts);
    DigitPartsJoin(parts);
    ConcatDigits(parts);
    NumberTextOfDigits(Concat(parts));
    assert JsString(Str(s)) == s;
    assert HasDigit(s) by { assert IsDigit(s[0]); }
  }

  /** Comma-joined runs of digits start with a digit, and removing their
      commas joins the runs. */
  lemma DigitPartsJoin(parts: seq<string>)
    requires parts != [] && forall i :: 0 <= i < |parts| ==> parts[i] != [] && AllDigits(parts[i])
    ensures JoinCommas(parts) != [] && IsDigit(JoinCommas(parts)[0])
    ensures RemoveCommas(JoinCommas(parts)) == Concat(parts)
  {
    assert forall i :: 0 <= i < |parts| ==> ',' !in parts[i] by {
      forall i | 0 <= i < |parts| ensures ',' !in parts[i] {
        forall k | 0 <= k < |parts[i]| ensures parts[i][k] != ',' { assert IsDigit(parts[i][k]); }
      }
    }
    RemoveCommasJoins(parts);
    JoinCommasHead(parts);
    assert IsDigit(parts[0][0]);
  }

  /** A join starts with the first character of its first part. */
  lemma JoinCommasHead(parts: seq<string>)
    requires parts != [] && parts[0] != []
    ensures JoinCommas(parts) != [] && JoinCommas(parts)[0] == parts[0][0]
  {
    if |parts| > 1 {
      assert JoinCommas(parts) == parts[0] + ("," + JoinCommas(parts[1..]));
    }
  }

  /** The end of a run of digits that is followed by a non-digit or by
      the end of the text. */
  lemma DigitsEndAt(s: string, k: nat, e: nat)
    requires k <= e <= |s|
    requires forall m :: k <= m < e ==> IsDigit(s[m])
    requires e < |s| ==> !IsDigit(s[e])
    ensures DigitsEnd(s, k) == e
  {
    DigitsWithinRun(s, k, e);
  }

  /** The first number of a negative decimal such as "-12.5 / 40" is
      "-12.5": the match takes the sign and the decimals and stops at the
      first non-digit after them. */
  lemma NumberTextSignedDecimal(a: string, b: string, rest: string)
    requires a != [] && AllDigits(a) && b != [] && AllDigits(b)
    requires rest == [] || !IsDigit(rest[0])
    ensures NumberText("-" + a + "." + b + rest) == Some("-" + a + "." + b)
  {
    var num := "-" + a + "." + b;
    var s := num + rest;
    var n, m := |a|, |b|;
    assert |num| == n + m + 2;
    assert s[0] == '-';
    forall i | 1 <= i < 1 + n ensures IsDigit(s[i]) {
      assert s[i] == a[i - 1];
    }
    assert s[1 + n] == '.';
    forall i | 2 + n <= i < 2 + n + m ensures IsDigit(s[i]) {
      assert s[i] == b[i - 2 - n];
    }
    assert 2 + n + m < |s| ==> s[2 + n + m] == rest[0];
    DigitsEndAt(s, 1, 1 + n);
    DigitsEndAt(s, 2 + n, 2 + n + m);
    assert MatchEnd(s, 0) == Some(2 + n + m);
    assert s[0..2 + n + m] == num;
  }

  /** On the `TP` card only the first number of the text counts, with its
      sign and decimals. */
  lemma FmtTakesFirstNumber(a: string, b: string, rest: string, group: string -> string)
    requires a != [] && AllDigits(a) && b != [] && AllDigits(b)
    requires (rest == [] || !IsDigit(rest[0])) && ',' !in rest
    ensures Fmt("TP", Str("-" + a + "." + b + rest), group) == group("-" + a + "." + b)
  {
    var s := "-" + a + "." + b + rest;
    assert ',' !in s by {
      forall i | 0 <= i < |s| ensures s[i] != ',' {
        if 1 <= i < 1 + |a| { assert s[i] == a[i - 1] && IsDigit(a[i - 1]); }
        else if 2 + |a| <= i < 2 + |a| + |b| { assert s[i] == b[i - 2 - |a|] && IsDigit(b[i - 2 - |a|]); }
        else if 2 + |a| + |b| <= i { assert s[i] == rest[i - 2 - |a| - |b|]; }
      }
    }
    assert s[1] == a[0] && IsDigit(s[1]);
    assert JsString(Str(s)) == s;
    NumberTextSignedDecimal(a, b, rest);
  }

  // ---------------------------------------------------------------------
  // The metric cards

  /** The card labels of the two columns, top to bottom, left then right. */
  const CardLabels: seq<string> := [
    "TP",
    "Technical",
    "Điểm đánh giá",
    "Điểm trung bình chuyên môn",
    "Trial",
    "Sư Phạm",
    "Đánh giá"
  ]

  /** The spreadsheet column position each card shows (J, R, U, P, S, T, W). */
  const CardColumns: seq<int> := [9, 17, 20, 15, 18, 19, 22]

  datatype Metric = Metric(heading: string, text: string)

  /** The value a row object holds under `name`, or null when it has no
      such field. */
  function ValueOf(fields: seq<Field>, name: string): (v: Value)
    ensures (forall k :: 0 <= k < |fields| ==> fields[k].name != name) ==> v == Null
    ensures forall k :: 0 <= k < |fields| && fields[k].name == name && (forall j :: 0 <= j < k ==> fields[j].name != name) ==> v == fields[k].value
  {
    if fields == [] then Null
    else if fields[0].name == name then fields[0].value
    else ValueOf(fields[1..], name)
  }

  /** `sheet?.[name]`: null when there is no matched row. */
  function FieldValue(sheet: Option<seq<Field>>, name: string): Value {
    match sheet
    case None => Null
    case Some(fields) => ValueOf(fields, name)
  }

  /** The seven metric cards, each showing `fmt(label, sheet?.[label])`. */
  function Cards(sheet: Option<seq<Field>>, group: string -> string): (r: seq<Metric>)
    ensures |r| == |CardLabels|
    ensures forall k :: 0 <= k < |r| ==> r[k].heading == CardLabels[k]
    ensures forall k :: 0 <= k < |r| ==> r[k].text == Fmt(CardLabels[k], FieldValue(sheet, CardLabels[k]), group)
  {
    seq(|CardLabels|, k requires 0 <= k < |CardLabels| =>
      Metric(CardLabels[k], Fmt(CardLabels[k], FieldValue(sheet, CardLabels[k]), group)))
  }

  /** The cards read exactly fields the server's remap produces: card `k`
      shows column `CardColumns[k]` of the matched row, formatted with its
      own label. */
  lemma CardsShowRemappedColumns(cols: seq<string>, row: Row, group: string -> string)
    ensures var r := Cards(Some(Remap(cols, row)), group);
      forall k :: 0 <= k < |r| ==> r[k].text == Fmt(CardLabels[k], Lookup(cols, row, CardColumns[k]), group)
  {
    var fields := Remap(cols, row);
    FieldLabelsAreNames();
    var at := [2, 4, 7, 3, 5, 6, 8];
    forall k | 0 <= k < |CardLabels|
      ensures FieldValue(Some(fields), CardLabels[k]) == Lookup(cols, row, CardColumns[k])
    {
      var n := at[k];
      assert fields[n].name == CardLabels[k] && ColumnIndices[n] == CardColumns[k];
      assert forall j :: 0 <= j < n ==> fields[j].name != CardLabels[k];
    }
  }

  /** Without a matched row every card shows the dash. */
  lemma NoRowAllDashes(group: string -> string)
    ensures forall k :: 0 <= k < |CardLabels| ==> Cards(None, group)[k].text == Dash
  {
  }

  /** Only the `TP` card groups digits: every other card shows a non-blank
      value's text unchanged, even when it looks numeric. */
  lemma OnlyTpIsGrouped(sheet: Option<seq<Field>>, group: string -> string, k: nat)
    requires 0 < k < |CardLabels| && !Blank(FieldValue(sheet, CardLabels[k]))
    ensures Cards(sheet, group)[k].text == JsString(FieldValue(sheet, CardLabels[k]))
  {
    assert CardLabels[k] != "TP";
  }
}

=== FILE: gviz.dfy ===
/** The wire decoder and table builder of the sheet endpoint (`parseGviz`):
    cut the JSON object out of the `setResponse(...)` wrapper, parse it, and
    turn its `table` into a list of column names and a list of rows keyed by
    those names. */
module Gviz {
  import opened Wrappers
  import opened Text

  /** A cell value as `JSON.parse` yields it. Numbers are modelled as
      integers; `Null` stands for both `null` and `undefined`. */
  datatype Value = Null | Str(s: string) | Num(n: int) | Bool(b: bool)

  /** `String(v)` in JavaScript. A string is its own text and a number is
      rendered in decimal. */
  function JsString(v: Value): (r: string)
    ensures v.Str? ==> r == v.s
    ensures v.Num? ==> r != [] && (r[0] == '-' <==> v.n < 0) && (v.n >= 0 ==> AllDigits(r))
  {
    match v
    case Null => "null"
    case Str(s) => s
    case Num(n) => IntToString(n)
    case Bool(b) => if b then "true" else "false"
  }

  /** `null` and the booleans collide only with the strings that spell
      them; no number reads as a keyword. */
  lemma JsStringKeywords(v: Value)
    ensures JsString(v) == "null" <==> v == Null || v == Str("null")
    ensures JsString(v) == "true" <==> v == Bool(true) || v == Str("true")
    ensures JsString(v) == "false" <==> v == Bool(false) || v == Str("false")
  {
    if v.Num? && v.n >= 0 {
      assert IsDigit(JsString(v)[0]);
    }
  }

  /** The parsed gviz document, as far as `parseGviz` looks into it.
      A `null` array element is kept apart from an object, since reading a
      property of it throws. */
  datatype CellDoc = NullCell | CellDoc(v: Value)
  datatype ColDoc = NullCol | ColDoc(columnLabel: Option<string>, columnId: Option<string>)
  datatype RowDoc = NullRow | RowDoc(c: Option<seq<CellDoc>>)
  datatype TableDoc = TableDoc(cols: Option<seq<ColDoc>>, rows: Option<seq<RowDoc>>)
  datatype Doc = Doc(table: Option<TableDoc>)

  /** `JSON.parse`, which either yields a document or throws. */
  type Parser = string -> Option<Doc>

  /** A row object: cell values keyed by column name. */
  type Row = map<string, Value>

  datatype Table = Table(cols: seq<string>, rows: seq<Row>)

  /** `text.slice(text.indexOf('{'), text.lastIndexOf('}') + 1)`, or `None`
      (the 'Invalid GVIZ response' error) when either brace is missing. */
  function Envelope(text: string): (r: Option<string>)
    ensures r.None? <==> '{' !in text || '}' !in text
    ensures r.Some? && r.value != [] ==>
      && r.value[0] == '{' && r.value[|r.value| - 1] == '}'
      && exists a :: OccursAt(text, r.value, a) && '{' !in text[..a] && '}' !in text[a + |r.value|..]
    ensures r.Some? && r.value == [] <==>
      && '{' in text && '}' in text
      && forall a, b :: 0 <= a < |text| && 0 <= b < |text| && text[a] == '{' && text[b] == '}' ==> b < a
  {
    match (IndexOf(text, '{'), LastIndexOf(text, '}'))
    case (Some(i), Some(j)) =>
      if j < i then
        // slice(start, end) with end <= start is empty
        assert forall a :: 0 <= a < i ==> text[a] != '{' by {
          forall a | 0 <= a < i ensures text[a] != '{' { assert text[..i][a] == text[a]; }
        }
        assert forall b :: j < b < |text| ==> text[b] != '}' by {
          forall b | j < b < |text| ensures text[b] != '}' { assert text[j + 1..][b - j - 1] == text[b]; }
        }
        Some([])
      else
        assert OccursAt(text, text[i..j + 1], i);
        assert text[i + |text[i..j + 1]|..] == text[j + 1..];
        Some(text[i..j + 1])
    case _ => None
  }

  /** The wire decoder: the enveloped text handed to `JSON.parse`. */
  function Decode(text: string, parse: Parser): (r: Option<Doc>)
    ensures '{' !in text || '}' !in text ==> r.None?
    ensures Envelope(text).Some? ==> r == parse(Envelope(text).value)
  {
    match Envelope(text)
    case None => None
    case Some(json) => parse(json)
  }

  /** `c.label || c.id || ''` for a column descriptor that is an object. */
  function ColumnName(c: ColDoc): (name: string)
    requires c.ColDoc?
    ensures name == "" <==>
      (c.columnLabel == None || c.columnLabel == Some("")) && (c.columnId == None || c.columnId == Some(""))
    ensures c.columnLabel.Some? && c.columnLabel.value != "" ==> name == c.columnLabel.value
    ensures name != "" ==> Some(name) == c.columnLabel || Some(name) == c.columnId
  {
    if c.columnLabel.Some? && c.columnLabel.value != "" then c.columnLabel.value
    else if c.columnId.Some? && c.columnId.value != "" then c.columnId.value
    else ""
  }

  /** `cols.map(c => c.label || c.id || '')`: one name per descriptor, in
      order; `None` when a descriptor is `null` (the mapping throws). */
  function Columns(cols: seq<ColDoc>): (r: Option<seq<string>>)
    ensures r.None? <==> NullCol in cols
    ensures r.Some? ==> |r.value| == |cols| && forall i :: 0 <= i < |cols| ==> r.value[i] == ColumnName(cols[i])
  {
    if cols == [] then Some([])
    else if cols[0].NullCol? then None
    else match Columns(cols[1..])
      case None => None
      case Some(rest) => Some([ColumnName(cols[0])] + rest)
  }

  /** The name the `forEach` in `parseGviz` stores a cell under when the
      column has no usable name. */
  function SyntheticKey(idx: nat): string {
    "col_" + NatToString(idx)
  }

  /** `cols[idx] || `col_${idx}``. */
  function Key(cols: seq<string>, idx: nat): (k: string)
    ensures k != ""
  {
    if idx < |cols| && cols[idx] != "" then cols[idx] else SyntheticKey(idx)
  }

  /** `cell?.v ?? null`: an absent cell and a cell without a value both
      read as null, and only they do. */
  function CellValue(c: CellDoc): (v: Value)
    ensures v == Null <==> c == NullCell || c == CellDoc(Null)
    ensures c.CellDoc? && c.v != Null ==> v == c.v
  {
    match c
    case NullCell => Null
    case CellDoc(v) => v
  }

  /** The keys the cells of a row are stored under, in cell order. */
  function CellKeys(cols: seq<string>, n: nat): (keys: seq<string>)
    ensures |keys| == n
    ensures forall i :: 0 <= i < n ==> keys[i] == Key(cols, i)
  {
    seq(n, i requires 0 <= i < n => Key(cols, i))
  }

  /** Position `i` is the last one written under its key. */
  predicate LastWriter(keys: seq<string>, i: int) {
    0 <= i < |keys| && forall j :: i < j < |keys| ==> keys[j] != keys[i]
  }

  /** The object obtained by assigning `obj[keys[i]] = vals[i]` for every
      `i` in order, starting from an empty object: its keys are the given
      keys, and each key holds the value of the last assignment to it. */
  function Assign(keys: seq<string>, vals: seq<Value>): (r: Row)
    requires |keys| == |vals|
    ensures r.Keys == set k | k in keys
    ensures forall i :: 0 <= i < |keys| && LastWriter(keys, i) ==> r[keys[i]] == vals[i]
    decreases |keys|
  {
    if keys == [] then map[]
    else
      var n := |keys| - 1;
      var prev := Assign(keys[..n], vals[..n]);
      AssignLast(keys, vals, keys[..n], vals[..n], prev);
      prev[keys[n] := vals[n]]
  }

  /** The last assignment `obj[keys[n]] = vals[n]` keeps the object's
      description: it adds its key, and it overwrites only the value under
      that key. */
  lemma AssignLast(keys: seq<string>, vals: seq<Value>, init: seq<string>, ivals: seq<Value>, prev: Row)
    requires 0 < |keys| == |vals| && init == keys[..|keys| - 1] && ivals == vals[..|vals| - 1]
    requires prev.Keys == set x | x in init
    requires forall i :: 0 <= i < |init| && LastWriter(init, i) ==> prev[init[i]] == ivals[i]
    ensures prev[keys[|keys| - 1] := vals[|keys| - 1]].Keys == set x | x in keys
    ensures forall i :: 0 <= i < |keys| && LastWriter(keys, i) ==> prev[keys[|keys| - 1] := vals[|keys| - 1]][keys[i]] == vals[i]
  {
    var n := |keys| - 1;
    assert keys == init + [keys[n]];
    forall i | 0 <= i < |keys| && LastWriter(keys, i)
      ensures prev[keys[n] := vals[n]][keys[i]] == vals[i]
    {
      if i < n {
        LastWriterOfPrefix(keys, i);
        assert ivals[i] == vals[i];
      }
    }
  }

  /** A last writer before the final assignment is also a last writer of
      the assignments before it, with a key other than the final one. */
  lemma LastWriterOfPrefix(keys: seq<string>, i: int)
    requires 0 <= i < |keys| - 1 && LastWriter(keys, i)
    ensures LastWriter(keys[..|keys| - 1], i) && keys[..|keys| - 1][i] == keys[i]
    ensures keys[i] != keys[|keys| - 1]
  {
  }

  /** The row object of a cell list, built as the `forEach` in `parseGviz`
      does: cell `idx` is stored under `Key(cols, idx)` with value
      `cell?.v ?? null`. */
  function BuildRow(cols: seq<string>, cells: seq<CellDoc>): (r: Row)
    ensures r.Keys == set i | 0 <= i < |cells| :: Key(cols, i)
    ensures forall i :: 0 <= i < |cells| && LastWriter(CellKeys(cols, |cells|), i) ==> r[Key(cols, i)] == CellValue(cells[i])
  {
    var keys := CellKeys(cols, |cells|);
    var r := Assign(keys, seq(|cells|, i requires 0 <= i < |cells| => CellValue(cells[i])));
    assert (set k | k in keys) == set i | 0 <= i < |cells| :: Key(cols, i) by {
      forall x | x in keys ensures x in set i | 0 <= i < |cells| :: Key(cols, i) {
        var i :| 0 <= i < |keys| && keys[i] == x;
      }
    }
    r
  }

  /** The row object of one row descriptor (`r.c?.forEach(...)`); a row
      without a cell list is an empty object. */
  function RowOf(cols: seq<string>, r: RowDoc): Row
    requires r.RowDoc?
  {
    match r.c
    case None => map[]
    case Some(cells) => BuildRow(cols, cells)
  }

  /** `rows.map(...)`: one row object per descriptor, in order; `None` when a
      descriptor is `null` (reading `r.c` throws). */
  function Rows(cols: seq<string>, rows: seq<RowDoc>): (r: Option<seq<Row>>)
    ensures r.None? <==> NullRow in rows
    ensures r.Some? ==> |r.value| == |rows| && forall i :: 0 <= i < |rows| ==> r.value[i] == RowOf(cols, rows[i])
  {
    if rows == [] then Some([])
    else if rows[0].NullRow? then None
    else match Rows(cols, rows[1..])
      case None => None
      case Some(rest) => Some([RowOf(cols, rows[0])] + rest)
  }

  /** `json.table?.cols || []`. */
  function ColDocs(doc: Doc): seq<ColDoc> {
    if doc.table.Some? && doc.table.value.cols.Some? then doc.table.value.cols.value else []
  }

  /** `json.table?.rows || []`. */
  function RowDocs(doc: Doc): seq<RowDoc> {
    if doc.table.Some? && doc.table.value.rows.Some? then doc.table.value.rows.value else []
  }

  /** The table builder. It fails only where the JavaScript throws: on a
      `null` column or row descriptor. */
  function Build(doc: Doc): (r: Option<Table>)
    ensures r.None? <==> NullCol in ColDocs(doc) || NullRow in RowDocs(doc)
    ensures r.Some? ==>
      && Columns(ColDocs(doc)) == Some(r.value.cols)
      && |r.value.cols| == |ColDocs(doc)|
      && |r.value.rows| == |RowDocs(doc)|
      && forall i :: 0 <= i < |RowDocs(doc)| ==> r.value.rows[i] == RowOf(r.value.cols, RowDocs(doc)[i])
  {
    match Columns(ColDocs(doc))
    case None => None
    case Some(cols) =>
      match Rows(cols, RowDocs(doc))
      case None => None
      case Some(rows) => Some(Table(cols, rows))
  }

  /** `parseGviz`: `None` where it throws. */
  function ParseGviz(text: string, parse: Parser): (r: Option<Table>)
    ensures r.None? <==>
      || '{' !in text || '}' !in text
      || parse(Envelope(text).value).None?
      || NullCol in ColDocs(parse(Envelope(text).value).value)
      || NullRow in RowDocs(parse(Envelope(text).value).value)
    ensures r.Some? ==> r == Build(parse(Envelope(text).value).value)
  {
    match Decode(text, parse)
    case None => None
    case Some(doc) => Build(doc)
  }

  // ---------------------------------------------------------------------
  // Properties of the row objects

  /** The synthetic keys of two different positions differ. */
  lemma SyntheticKeyInjective(i: nat, j: nat)
    ensures SyntheticKey(i) == SyntheticKey(j) ==> i == j
  {
    if SyntheticKey(i) == SyntheticKey(j) {
      assert NatToString(i) == SyntheticKey(i)[4..];
      assert NatToString(j) == SyntheticKey(j)[4..];
      NatToStringInjective(i, j);
    }
  }

  /** No row object ever has the empty key: an empty column name is
      replaced by the synthetic key when the row is built. */
  lemma EmptyKeyNeverStored(cols: seq<string>, cells: seq<CellDoc>)
    ensures "" !in BuildRow(cols, cells)
  {
  }

  /** A cell whose key no later cell shares is stored under that key; with
      an empty name or beyond the header it is the synthetic key. */
  lemma CellStored(cols: seq<string>, cells: seq<CellDoc>, i: nat)
    requires i < |cells| && LastWriter(CellKeys(cols, |cells|), i)
    ensures i < |cols| && cols[i] != "" ==> BuildRow(cols, cells)[cols[i]] == CellValue(cells[i])
    ensures (i >= |cols| || cols[i] == "") ==> BuildRow(cols, cells)[SyntheticKey(i)] == CellValue(cells[i])
  {
  }

  /** A duplicated column name: the later cell overwrites the earlier one. */
  lemma {:induction false} DuplicateNameOverwrites(cols: seq<string>, cells: seq<CellDoc>, a: nat, b: nat)
    requires a < b < |cells| && b < |cols|
    requires cols[a] == cols[b] != ""
    requires forall j :: b < j < |cells| ==> Key(cols, j) != Key(cols, b)
    ensures BuildRow(cols, cells)[cols[a]] == CellValue(cells[b])
  {
    var keys := CellKeys(cols, |cells|);
    assert forall j :: 0 <= j < |keys| ==> keys[j] == Key(cols, j);
    assert LastWriter(keys, b);
    assert Key(cols, b) == cols[b];
    assert BuildRow(cols, cells)[Key(cols, b)] == CellValue(cells[b]);
  }

  /** With distinct, non-empty column names and a full row of cells, the
      row's keys are exactly the column names, each holding its own cell. */
  lemma DistinctHeaderRow(cols: seq<string>, cells: seq<CellDoc>)
    requires |cells| == |cols|
    requires forall i :: 0 <= i < |cols| ==> cols[i] != ""
    requires forall i, j :: 0 <= i < j < |cols| ==> cols[i] != cols[j]
    ensures BuildRow(cols, cells).Keys == set i | 0 <= i < |cols| :: cols[i]
    ensures forall i :: 0 <= i < |cols| ==> BuildRow(cols, cells)[cols[i]] == CellValue(cells[i])
  {
    var keys := CellKeys(cols, |cells|);
    assert forall i :: 0 <= i < |cols| ==> keys[i] == cols[i];
    forall i | 0 <= i < |cols| ensures LastWriter(keys, i) {
    }
    assert (set i | 0 <= i < |cells| :: Key(cols, i)) == set i | 0 <= i < |cols| :: cols[i] by {
      forall i | 0 <= i < |cols| ensures cols[i] in set j | 0 <= j < |cells| :: Key(cols, j) {
        assert Key(cols, i) == cols[i];
      }
    }
  }
}

=== FILE: seqs.dfy ===
/** Order-preserving selection from a sequence (`Array.prototype.filter`),
    stated once for any element type and test. */
module Seqs {

  /** The elements of `xs` that pass `keep`, in their original order. */
  function FilterBy<T>(xs: seq<T>, keep: T -> bool): (r: seq<T>)
    ensures |r| <= |xs|
    ensures forall k :: 0 <= k < |r| ==> keep(r[k])
    ensures forall i :: 0 <= i < |xs| && keep(xs[i]) ==> xs[i] in r
    ensures r == [] <==> forall i :: 0 <= i < |xs| ==> !keep(xs[i])
  {
    if xs == [] then []
    else
      var rest := FilterBy(xs[1..], keep);
      assert forall i :: 1 <= i < |xs| ==> xs[i] == xs[1..][i - 1];
      if keep(xs[0]) then [xs[0]] + rest else rest
  }

  /** A test every element passes keeps the whole sequence. */
  lemma {:induction false} FilterKeepsAll<T>(xs: seq<T>, keep: T -> bool)
    requires forall i :: 0 <= i < |xs| ==> keep(xs[i])
    ensures FilterBy(xs, keep) == xs
  {
    if xs != [] {
      FilterKeepsAll(xs[1..], keep);
      assert xs == [xs[0]] + xs[1..];
    }
  }

  /** Each element that passes is kept as often as it occurs; every other
      element is dropped. */
  lemma {:induction false} FilterCount<T>(xs: seq<T>, keep: T -> bool, x: T)
    ensures multiset(FilterBy(xs, keep))[x] == if keep(x) then multiset(xs)[x] else 0
  {
    if xs != [] {
      FilterCount(xs[1..], keep, x);
      assert xs == [xs[0]] + xs[1..];
      assert multiset(xs) == multiset([xs[0]]) + multiset(xs[1..]);
      if keep(xs[0]) {
        assert multiset(FilterBy(xs, keep)) == multiset([xs[0]]) + multiset(FilterBy(xs[1..], keep));
      }
    }
  }

  /** Filtering distributes over concatenation: the elements kept from a
      first part come before those kept from the rest, so the original
      order is preserved. */
  lemma {:induction false} FilterAppend<T>(a: seq<T>, b: seq<T>, keep: T -> bool)
    ensures FilterBy(a + b, keep) == FilterBy(a, keep) + FilterBy(b, keep)
  {
    if a == [] {
      assert a + b == b;
    } else {
      assert (a + b)[1..] == a[1..] + b;
      FilterAppend(a[1..], b, keep);
    }
  }
}

=== FILE: sheet.dfy ===
/** The `/api/sheet` handler as a pure function: the early exits, the
    any-cell match of `lmsCode`, and the remap of fixed spreadsheet column
    letters onto the nine output field names. The HTTP fetch is an input. */
module Sheet {
  import opened Wrappers
  import opened Text
  import opened Gviz
  import opened Seqs

  // ---------------------------------------------------------------------
  // Matching

  /** `String(v ?? '')`: the text a cell is compared by. A null cell reads
      as the empty string, not as "null". */
  function CellText(v: Value): (t: string)
    ensures t == "" <==> v == Null || v == Str("")
    ensures t != JsString(v) <==> v.Null?
  {
    if v.Null? then "" else JsString(v)
  }

  /** `String(lmsCode).trim().toLowerCase()`. */
  function Needle(lmsCode: string): string {
    Norm(lmsCode)
  }

  predicate CellMatches(v: Value, needle: string) {
    Norm(CellText(v)) == needle
  }

  /** `Object.values(row).some(...)`: some cell of the row, in any column,
      equals the needle once trimmed and lower-cased. */
  predicate RowMatches(row: Row, needle: string) {
    exists v :: v in row.Values && CellMatches(v, needle)
  }

  /** `rows.filter(...)`: the matching rows, in table order. */
  function Filter(rows: seq<Row>, needle: string): (r: seq<Row>)
    ensures |r| <= |rows|
    ensures forall k :: 0 <= k < |r| ==> RowMatches(r[k], needle)
    ensures forall i :: 0 <= i < |rows| && RowMatches(rows[i], needle) ==> rows[i] in r
    ensures r == [] <==> forall i :: 0 <= i < |rows| ==> !RowMatches(rows[i], needle)
  {
    FilterBy(rows, (row: Row) => RowMatches(row, needle))
  }

  /** The match keeps table order: the rows kept from a first part of the
      table all come before those kept from the rest. */
  lemma FilterKeepsTableOrder(front: seq<Row>, back: seq<Row>, needle: string)
    ensures Filter(front + back, needle) == Filter(front, needle) + Filter(back, needle)
  {
    FilterAppend(front, back, (row: Row) => RowMatches(row, needle));
  }

  /** A matching row is kept exactly as often as the table holds it, so a
      row the table holds once appears once; any other row is dropped. */
  lemma FilterKeepsEachRowOnce(rows: seq<Row>, needle: string, row: Row)
    ensures multiset(Filter(rows, needle))[row] == if RowMatches(row, needle) then multiset(rows)[row] else 0
  {
    FilterCount(rows, (r: Row) => RowMatches(r, needle), row);
  }

  /** A null cell matches only the empty needle. */
  lemma NullMatchesOnlyEmptyNeedle(needle: string)
    ensures CellMatches(Null, needle) <==> needle == ""
  {
    assert Trim("") == "";
  }

  /** A non-empty, white-space-only `lmsCode` passes the handler's guard,
      yet its needle is empty: every row holding a null cell or a blank
      string cell matches it. */
  lemma BlankCodeMatchesBlankCells(lmsCode: string, row: Row, v: Value)
    requires lmsCode != [] && AllSpace(lmsCode)
    requires v in row.Values && (v.Null? || (v.Str? && AllSpace(v.s)))
    ensures Needle(lmsCode) == ""
    ensures RowMatches(row, Needle(lmsCode))
  {
    assert Trim(CellText(v)) == [];
  }

  /** The match ignores ASCII case and surrounding white space on both
      sides: a query that differs from a cell's text only in those matches
      the row. */
  lemma MatchIgnoresCaseAndPadding(p: string, query: string, q: string, row: Row, v: Value)
    requires AllSpace(p) && AllSpace(q)
    requires v in row.Values && Lower(CellText(v)) == Lower(query)
    ensures RowMatches(row, Needle(p + query + q))
  {
    NormIgnoresPadding(p, query, q);
    NormIgnoresAsciiCase(CellText(v), query);
  }

  // ---------------------------------------------------------------------
  // Remapping by column letter

  /** `letterToIndex`: `ch.toUpperCase().charCodeAt(0) - 'A'.charCodeAt(0)`.
      Exactly the 52 ASCII letters address one of the 26 columns, and both
      cases of a letter address the same one. */
  function LetterToIndex(c: char): (idx: int)
    ensures ('A' <= c <= 'Z' || 'a' <= c <= 'z') <==> 0 <= idx < 26
    ensures 'a' <= c <= 'z' ==> idx == LetterToIndex((c as int - 32) as char)
  {
    UpperChar(c) as int - 'A' as int
  }

  /** `pickLetters`. */
  const PickLetters: seq<char> := ['D', 'G', 'J', 'P', 'R', 'S', 'T', 'U', 'W']

  /** `names`, paired positionally with `PickLetters`. */
  const FieldNames: seq<string> := [
    "Rank",
    "Role",
    "TP",
    "Điểm trung bình chuyên môn",
    "Technical",
    "Trial",
    "Sư Phạm",
    "Điểm đánh giá",
    "Đánh giá"
  ]

  /** The zero-based column positions of D, G, J, P, R, S, T, U, W. */
  const ColumnIndices: seq<int> := [3, 6, 9, 15, 17, 18, 19, 20, 22]

  /** `names[i] || L`: the output key of the `i`-th picked letter. */
  function FieldLabel(i: nat): string
    requires i < |PickLetters|
  {
    if i < |FieldNames| && FieldNames[i] != "" then FieldNames[i] else [PickLetters[i]]
  }

  /** The nine names are all non-empty, so `names[i] || L` never falls
      back to the letter, and they are pairwise distinct, so no assignment
      of the remap overwrites another. */
  lemma FieldLabelsAreNames()
    ensures |PickLetters| == |FieldNames| == |ColumnIndices|
    ensures forall i :: 0 <= i < |PickLetters| ==> FieldLabel(i) == FieldNames[i]
    ensures forall i, j :: 0 <= i < j < |FieldNames| ==> FieldNames[i] != FieldNames[j]
  {
    var lengths := [4, 4, 2, 26, 9, 5, 7, 13, 8];
    assert forall i :: 0 <= i < |FieldNames| ==> |FieldNames[i]| == lengths[i];
    assert FieldNames[0][1] != FieldNames[1][1];
  }

  /** The picked letters address columns 3, 6, 9, 15, 17, 18, 19, 20, 22. */
  lemma PickedColumns()
    ensures forall i :: 0 <= i < |PickLetters| ==> LetterToIndex(PickLetters[i]) == ColumnIndices[i]
  {
  }

  /** `byIndex[idx] ?? null` with `byIndex = cols.map((_, i) => row[cols[i]])`:
      the value under the column name at position `idx`; null past the
      header, for a name the row lacks, and for a negative position. */
  function Lookup(cols: seq<string>, row: Row, idx: int): (v: Value)
    ensures !(0 <= idx < |cols|) ==> v == Null
    ensures v != Null ==> v in row.Values && cols[idx] in row && row[cols[idx]] == v
    ensures 0 <= idx < |cols| && cols[idx] in row ==> v == row[cols[idx]]
  {
    if 0 <= idx < |cols| && cols[idx] in row then row[cols[idx]] else Null
  }

  /** One entry of a remapped row. */
  datatype Field = Field(name: string, value: Value)

  /** The remap of one matched row: the nine output names in `pickLetters`
      order, each with the value at its letter's column position. */
  function Remap(cols: seq<string>, row: Row): (r: seq<Field>)
    ensures |r| == |FieldNames|
    ensures forall i :: 0 <= i < |r| ==> r[i].name == FieldNames[i]
    ensures forall i :: 0 <= i < |r| ==> r[i].value == Lookup(cols, row, ColumnIndices[i])
  {
    FieldLabelsAreNames();
    PickedColumns();
    seq(|PickLetters|, i requires 0 <= i < |PickLetters| =>
      Field(FieldLabel(i), Lookup(cols, row, LetterToIndex(PickLetters[i]))))
  }

  /** A picked column past the end of the header remaps to null: never an
      out-of-bounds failure. */
  lemma ShortHeaderGivesNull(cols: seq<string>, row: Row, i: nat)
    requires i < |FieldNames| && ColumnIndices[i] >= |cols|
    ensures Remap(cols, row)[i].value == Null
  {
  }

  /** A picked column whose header name is empty always remaps to null: the
      row stored that cell under `col_<idx>`, but the remap looks up the
      empty name. */
  lemma EmptyNameGivesNull(cols: seq<string>, cells: seq<CellDoc>, i: nat)
    requires i < |FieldNames| && ColumnIndices[i] < |cols| && cols[ColumnIndices[i]] == ""
    ensures Remap(cols, BuildRow(cols, cells))[i].value == Null
  {
    EmptyKeyNeverStored(cols, cells);
  }

  /** The remap is positional: a picked column with a non-empty name that no
      later cell of the row shares yields that column's own cell, whatever
      the name's text. */
  lemma RemapIsPositional(cols: seq<string>, cells: seq<CellDoc>, i: nat)
    requires i < |FieldNames|
    requires ColumnIndices[i] < |cols| && ColumnIndices[i] < |cells|
    requires cols[ColumnIndices[i]] != ""
    requires LastWriter(CellKeys(cols, |cells|), ColumnIndices[i])
    ensures Remap(cols, BuildRow(cols, cells))[i].value == CellValue(cells[ColumnIndices[i]])
  {
    CellStored(cols, cells, ColumnIndices[i]);
  }

  /** A picked column whose name a later column repeats yields the later
      column's cell: the later assignment overwrote the earlier one. */
  lemma RemapSeesLaterDuplicate(cols: seq<string>, cells: seq<CellDoc>, i: nat, b: nat)
    requires i < |FieldNames|
    requires ColumnIndices[i] < b < |cells| && b < |cols|
    requires cols[ColumnIndices[i]] == cols[b] != ""
    requires forall j :: b < j < |cells| ==> Key(cols, j) != Key(cols, b)
    ensures Remap(cols, BuildRow(cols, cells))[i].value == CellValue(cells[b])
  {
    DuplicateNameOverwrites(cols, cells, ColumnIndices[i], b);
  }

  // ---------------------------------------------------------------------
  // The handler

  /** What the upstream fetch produced: a response with its status and body
      text, or a rejected `fetch`/`text()`. */
  datatype Upstream = Reply(status: int, body: string) | FetchFailed

  /** The handler's outcomes. `UpstreamError` relays the upstream status and
      body unchanged. */
  datatype Outcome =
    | Resolved(count: nat, cols: seq<string>, rows: seq<seq<Field>>)
    | MissingLmsCode
    | UpstreamError(status: int, body: string)
    | NotPublic
    | ReadFailure

  /** `resp.ok` of the Fetch standard. */
  predicate IsOk(status: int) {
    200 <= status <= 299
  }

  /** The marker that identifies a gviz reply. */
  const Marker: string := "google.visualization.Query.setResponse"

  /** The HTTP status the handler answers with. */
  function StatusCode(o: Outcome): int {
    match o
    case Resolved(_, _, _) => 200
    case MissingLmsCode => 400
    case UpstreamError(status, _) => status
    case NotPublic => 400
    case ReadFailure => 500
  }

  /** `!lmsCode`: the query parameter is missing or empty. */
  predicate Falsy(lmsCode: Option<string>) {
    lmsCode == None || lmsCode == Some("")
  }

  /** The remap of every matched row, in match order. */
  function RemapAll(cols: seq<string>, rows: seq<Row>): (r: seq<seq<Field>>)
    ensures |r| == |rows|
    ensures forall k :: 0 <= k < |rows| ==> r[k] == Remap(cols, rows[k])
  {
    if rows == [] then [] else [Remap(cols, rows[0])] + RemapAll(cols, rows[1..])
  }

  /** The `/api/sheet` handler over the value of `lmsCode`, what the fetch
      produced and the JSON parser. */
  function Resolve(lmsCode: Option<string>, upstream: Upstream, parse: Parser): (o: Outcome)
    ensures o == MissingLmsCode <==> Falsy(lmsCode)
    ensures o.UpstreamError? <==> !Falsy(lmsCode) && upstream.Reply? && !IsOk(upstream.status)
    ensures o.UpstreamError? ==> o == UpstreamError(upstream.status, upstream.body)
    ensures o == NotPublic <==>
      !Falsy(lmsCode) && upstream.Reply? && IsOk(upstream.status) && !Includes(upstream.body, Marker)
    ensures o == ReadFailure <==>
      && !Falsy(lmsCode)
      && (|| upstream.FetchFailed?
          || (IsOk(upstream.status) && Includes(upstream.body, Marker) && ParseGviz(upstream.body, parse).None?))
    ensures o.Resolved? ==>
      && upstream.Reply? && ParseGviz(upstream.body, parse).Some?
      && var t := ParseGviz(upstream.body, parse).value;
      && var matched := Filter(t.rows, Needle(lmsCode.value));
      && o.cols == t.cols
      && o.count == |o.rows| == |matched|
      && forall k :: 0 <= k < |matched| ==> o.rows[k] == Remap(t.cols, matched[k])
  {
    if Falsy(lmsCode) then MissingLmsCode
    else match upstream
      case FetchFailed => ReadFailure
      case Reply(status, body) =>
        if !IsOk(status) then UpstreamError(status, body)
        else if !Includes(body, Marker) then NotPublic
        else match ParseGviz(body, parse)
          case None => ReadFailure
          case Some(t) =>
            var rows := RemapAll(t.cols, Filter(t.rows, Needle(lmsCode.value)));
            Resolved(|rows|, t.cols, rows)
  }

  /** A missing `lmsCode` is answered before anything is fetched: the
      outcome does not depend on the upstream at all. */
  lemma MissingCodeIgnoresUpstream(lmsCode: Option<string>, u1: Upstream, u2: Upstream, parse: Parser)
    requires Falsy(lmsCode)
    ensures Resolve(lmsCode, u1, parse) == Resolve(lmsCode, u2, parse) == MissingLmsCode
    ensures StatusCode(Resolve(lmsCode, u1, parse)) == 400
  {
  }

  /** An upstream failure and a non-public sheet are never conflated: the
      first always answers with a non-2xx status, the second only follows
      a 2xx reply. */
  lemma FailuresNotConflated(lmsCode: Option<string>, upstream: Upstream, parse: Parser)
    ensures Resolve(lmsCode, upstream, parse).UpstreamError? ==> !IsOk(StatusCode(Resolve(lmsCode, upstream, parse)))
    ensures Resolve(lmsCode, upstream, parse).NotPublic? ==> upstream.Reply? && IsOk(upstream.status)
    ensures IsOk(StatusCode(Resolve(lmsCode, upstream, parse))) <==> Resolve(lmsCode, upstream, parse).Resolved?
  {
  }

  /** A 2xx gviz reply whose envelope parses into a document without
      `null` descriptors always succeeds, with the document's column names;
      an `lmsCode` no row holds gives an empty list, not a failure. */
  lemma ResolvedRowsAreMatches(lmsCode: string, body: string, status: int, parse: Parser, doc: Doc)
    requires lmsCode != "" && IsOk(status) && Includes(body, Marker)
    requires '{' in body && '}' in body && parse(Envelope(body).value) == Some(doc)
    requires NullCol !in ColDocs(doc) && NullRow !in RowDocs(doc)
    ensures var o := Resolve(Some(lmsCode), Reply(status, body), parse);
      && o.Resolved?
      && Columns(ColDocs(doc)) == Some(o.cols)
      && (o.count == 0 <==>
          forall i :: 0 <= i < |RowDocs(doc)| ==> !RowMatches(RowOf(o.cols, RowDocs(doc)[i]), Needle(lmsCode)))
  {
    var t := ParseGviz(body, parse).value;
    assert forall i :: 0 <= i < |RowDocs(doc)| ==> t.rows[i] == RowOf(t.cols, RowDocs(doc)[i]);
  }
}

=== FILE: text.dfy ===
/** The JavaScript string primitives the sheet pipeline relies on:
    `trim`, ASCII `toLowerCase`/`toUpperCase`, `indexOf`/`lastIndexOf` of a
    character, `includes`, and the decimal rendering of integers. */
module Text {
  import opened Wrappers

  /** ECMAScript WhiteSpace and LineTerminator code points: exactly what
      `String.prototype.trim` removes (the Zs category is listed in full). */
  predicate IsSpace(c: char) {
    || c == ' ' || c == '\t' || c == '\n' || c == '\r'
    || c == '\U{000B}' || c == '\U{000C}' || c == '\U{00A0}' || c == '\U{1680}'
    || ('\U{2000}' <= c <= '\U{200A}')
    || c == '\U{2028}' || c == '\U{2029}' || c == '\U{202F}' || c == '\U{205F}'
    || c == '\U{3000}' || c == '\U{FEFF}'
  }

  predicate AllSpace(s: string) {
    forall i :: 0 <= i < |s| ==> IsSpace(s[i])
  }

  /** Index of the first character of `s` at or after `from` that is not
      white space, or |s| when there is none. */
  function SkipSpace(s: string, from: nat): (a: nat)
    requires from <= |s|
    ensures from <= a <= |s|
    ensures forall i :: from <= i < a ==> IsSpace(s[i])
    ensures a < |s| ==> !IsSpace(s[a])
    decreases |s| - from
  {
    if from < |s| && IsSpace(s[from]) then SkipSpace(s, from + 1) else from
  }

  /** The end of `s[lo..hi]` once its trailing white space is dropped. */
  function SkipSpaceBack(s: string, lo: nat, hi: nat): (b: nat)
    requires lo <= hi <= |s|
    ensures lo <= b <= hi
    ensures forall i :: b <= i < hi ==> IsSpace(s[i])
    ensures b > lo ==> !IsSpace(s[b - 1])
    decreases hi
  {
    if hi > lo && IsSpace(s[hi - 1]) then SkipSpaceBack(s, lo, hi - 1) else hi
  }

  /** `s[a..b]` is what remains of `s` once white space is stripped from
      both ends: only white space outside it, none at either of its ends. */
  predicate TrimmedSlice(s: string, a: int, b: int) {
    && 0 <= a <= b <= |s|
    && (forall i :: 0 <= i < a ==> IsSpace(s[i]))
    && (forall i :: b <= i < |s| ==> IsSpace(s[i]))
    && (a < b ==> !IsSpace(s[a]) && !IsSpace(s[b - 1]))
  }

  function TrimBounds(s: string): (ab: (nat, nat))
    ensures TrimmedSlice(s, ab.0, ab.1)
  {
    var a := SkipSpace(s, 0);
    (a, SkipSpaceBack(s, a, |s|))
  }

  /** `String.prototype.trim`. */
  function Trim(s: string): (r: string)
    ensures r == [] <==> AllSpace(s)
    ensures r == [] || (!IsSpace(r[0]) && !IsSpace(r[|r| - 1]))
    ensures |r| <= |s|
  {
    var ab := TrimBounds(s);
    assert ab.0 == ab.1 ==> AllSpace(s);
    assert ab.0 < ab.1 ==> s[ab.0..ab.1][0] == s[ab.0];
    s[ab.0..ab.1]
  }

  /** Any slice with only white space outside it and none at its ends is
      exactly what `trim` returns. */
  lemma TrimUnique(s: string, a: nat, b: nat)
    requires TrimmedSlice(s, a, b)
    ensures Trim(s) == s[a..b]
  {
    var ab := TrimBounds(s);
    if a == b {
      assert AllSpace(s) by {
        forall i | 0 <= i < |s| ensures IsSpace(s[i]) {
          if i < a { } else { }
        }
      }
    }
  }

  /** Leading white space never changes what `trim` returns. */
  lemma TrimDropsPrefix(p: string, s: string)
    requires AllSpace(p)
    ensures Trim(p + s) == Trim(s)
  {
    var ab := TrimBounds(s);
    var u := p + s;
    var a, b := |p| + ab.0, |p| + ab.1;
    forall i | 0 <= i < a ensures IsSpace(u[i]) {
      if i < |p| { assert u[i] == p[i]; } else { assert u[i] == s[i - |p|]; }
    }
    forall i | b <= i < |u| ensures IsSpace(u[i]) {
      assert u[i] == s[i - |p|];
    }
    assert u[a..b] == s[ab.0..ab.1];
    TrimUnique(u, a, b);
  }

  /** Trailing white space never changes what `trim` returns. */
  lemma TrimDropsSuffix(s: string, q: string)
    requires AllSpace(q)
    ensures Trim(s + q) == Trim(s)
  {
    var ab := TrimBounds(s);
    var u := s + q;
    forall i | 0 <= i < ab.0 ensures IsSpace(u[i]) {
      assert u[i] == s[i];
    }
    forall i | ab.1 <= i < |u| ensures IsSpace(u[i]) {
      if i < |s| { assert u[i] == s[i]; } else { assert u[i] == q[i - |s|]; }
    }
    assert u[ab.0..ab.1] == s[ab.0..ab.1];
    TrimUnique(u, ab.0, ab.1);
  }

  /** Surrounding white space never changes what `trim` returns. */
  lemma TrimIgnoresPadding(p: string, s: string, q: string)
    requires AllSpace(p) && AllSpace(q)
    ensures Trim(p + s + q) == Trim(s)
  {
    TrimDropsSuffix(p + s, q);
    TrimDropsPrefix(p, s);
  }

  /** ASCII `toLowerCase` of one character. */
  function LowerChar(c: char): char {
    if 'A' <= c <= 'Z' then (c as int + 32) as char else c
  }

  /** ASCII `toUpperCase` of one character. */
  function UpperChar(c: char): char {
    if 'a' <= c <= 'z' then (c as int - 32) as char else c
  }

  /** `toLowerCase` restricted to ASCII: upper-case ASCII letters become
      lower case, every other character is kept. */
  function Lower(s: string): (r: string)
    ensures |r| == |s|
    ensures forall i :: 0 <= i < |r| ==> !('A' <= r[i] <= 'Z')
    ensures forall i :: 0 <= i < |r| ==> (r[i] == s[i] || ('A' <= s[i] <= 'Z' && r[i] as int == s[i] as int + 32))
  {
    seq(|s|, i requires 0 <= i < |s| => LowerChar(s[i]))
  }

  /** Lower-casing and trimming commute, as no white space is an ASCII letter. */
  lemma LowerTrim(s: string)
    ensures Lower(Trim(s)) == Trim(Lower(s))
  {
    var ab := TrimBounds(s);
    var ls := Lower(s);
    forall i | 0 <= i < |s| ensures IsSpace(ls[i]) == IsSpace(s[i]) {
      LowerCharSpace(s[i]);
    }
    assert TrimmedSlice(ls, ab.0, ab.1);
    TrimUnique(ls, ab.0, ab.1);
    LowerSlice(s, ab.0, ab.1);
  }

  /** Lower-casing is character by character, so it commutes with slicing. */
  lemma LowerSlice(s: string, a: nat, b: nat)
    requires a <= b <= |s|
    ensures Lower(s[a..b]) == Lower(s)[a..b]
  {
    var l, r := Lower(s[a..b]), Lower(s)[a..b];
    forall i | 0 <= i < |l| ensures l[i] == r[i] {
      assert l[i] == LowerChar(s[a..b][i]);
    }
  }

  lemma LowerCharSpace(c: char)
    ensures IsSpace(LowerChar(c)) == IsSpace(c)
  {
  }

  /** The normal form the sheet matcher compares: `String(x).trim().toLowerCase()`. */
  function Norm(s: string): string {
    Lower(Trim(s))
  }

  lemma NormIgnoresPadding(p: string, s: string, q: string)
    requires AllSpace(p) && AllSpace(q)
    ensures Norm(p + s + q) == Norm(s)
  {
    TrimIgnoresPadding(p, s, q);
  }

  /** Two strings equal up to ASCII case have the same normal form. */
  lemma NormIgnoresAsciiCase(s: string, t: string)
    requires Lower(s) == Lower(t)
    ensures Norm(s) == Norm(t)
  {
    LowerTrim(s);
    LowerTrim(t);
  }

  /** `s.indexOf(c)`, with `None` for JavaScript's -1. */
  function IndexOf(s: string, c: char): (r: Option<nat>)
    ensures r.None? <==> c !in s
    ensures r.Some? ==> r.value < |s| && s[r.value] == c && c !in s[..r.value]
  {
    if s == [] then None
    else if s[0] == c then Some(0)
    else match IndexOf(s[1..], c)
      case None => None
      case Some(k) =>
        assert s[..k + 1] == [s[0]] + s[1..][..k];
        Some(k + 1)
  }

  /** `s.lastIndexOf(c)`, with `None` for JavaScript's -1. */
  function LastIndexOf(s: string, c: char): (r: Option<nat>)
    ensures r.None? <==> c !in s
    ensures r.Some? ==> r.value < |s| && s[r.value] == c && c !in s[r.value + 1..]
  {
    if s == [] then None
    else if s[|s| - 1] == c then Some(|s| - 1)
    else
      var init := s[..|s| - 1];
      assert s == init + [s[|s| - 1]];
      match LastIndexOf(init, c)
      case None => None
      case Some(k) =>
        assert s[k + 1..] == init[k + 1..] + [s[|s| - 1]];
        Some(k)
  }

  predicate OccursAt(text: string, pat: string, i: int) {
    0 <= i && i + |pat| <= |text| && text[i..i + |pat|] == pat
  }

  /** `text.includes(pat)`. */
  function Includes(text: string, pat: string): (b: bool)
    ensures b <==> exists i :: OccursAt(text, pat, i)
    decreases |text|
  {
    if |pat| > |text| then false
    else if text[..|pat|] == pat then
      assert OccursAt(text, pat, 0);
      true
    else
      var b := Includes(text[1..], pat);
      forall i ensures OccursAt(text[1..], pat, i) <==> OccursAt(text, pat, i + 1) {
        if 0 <= i && i + |pat| <= |text| - 1 {
          assert text[1..][i..i + |pat|] == text[i + 1..i + 1 + |pat|];
        }
      }
      assert forall i :: OccursAt(text, pat, i) ==> i == 0 || OccursAt(text[1..], pat, i - 1);
      b
  }

  predicate IsDigit(c: char) {
    '0' <= c <= '9'
  }

  predicate AllDigits(s: string) {
    forall i :: 0 <= i < |s| ==> IsDigit(s[i])
  }

  function DigitChar(d: nat): (c: char)
    requires d < 10
    ensures IsDigit(c)
  {
    ('0' as int + d) as char
  }

  /** The value of a string of decimal digits. */
  function DigitsValue(s: string): nat
    requires AllDigits(s)
  {
    if s == [] then 0 else DigitsValue(s[..|s| - 1]) * 10 + (s[|s| - 1] as int - '0' as int)
  }

  /** The decimal rendering of a natural number, as `String(n)` gives it. */
  function NatToString(n: nat): (r: string)
    ensures r != [] && AllDigits(r)
    ensures r[0] == '0' ==> r == "0"
    decreases n
  {
    if n < 10 then [DigitChar(n)] else NatToString(n / 10) + [DigitChar(n % 10)]
  }

  /** Reading the rendering back gives the number. */
  lemma {:induction false} NatToStringRoundTrip(n: nat)
    ensures DigitsValue(NatToString(n)) == n
    decreases n
  {
    if n >= 10 {
      var r := NatToString(n);
      assert r[..|r| - 1] == NatToString(n / 10);
      NatToStringRoundTrip(n / 10);
    }
  }

  lemma NatToStringInjective(m: nat, n: nat)
    ensures NatToString(m) == NatToString(n) ==> m == n
  {
    NatToStringRoundTrip(m);
    NatToStringRoundTrip(n);
  }

  /** `String(i)` for an integer-valued JavaScript number: a minus sign
      exactly for a negative number, followed by digits that read back as
      its magnitude. */
  function IntToString(i: int): (r: string)
    ensures r != []
    ensures r[0] == '-' <==> i < 0
    ensures i >= 0 ==> AllDigits(r) && DigitsValue(r) == i
    ensures i < 0 ==> r[1..] != [] && AllDigits(r[1..]) && DigitsValue(r[1..]) == -i
    ensures r[0] == '0' ==> r == "0"
    ensures i < 0 ==> r[1] != '0'
  {
    if i < 0 then
      var m := NatToString(-i);
      NatToStringRoundTrip(-i);
      assert ("-" + m)[1..] == m;
      "-" + m
    else
      NatToStringRoundTrip(i);
      NatToString(i)
  }
}

=== FILE: wrappers.dfy ===
/** The optional-value type used throughout the model for JavaScript's
    `undefined`/`null` results and for operations that can throw. */
module Wrappers {

  datatype Option<+T> = None | Some(value: T)
}
